=== FILE: README.md ===
# DirectionalModal, modelled in Dafny

A model of `DirectionalModal`, a React Native component that shows a
full-window surface sliding in from one screen edge (`direction`: top, bottom,
left or right) when its `visible` property turns true, and sliding it back out
when `visible` turns false.

The model covers the component's own logic:

- `initializeState`: the required `direction` and `visible` properties, the
  defaults of the optional ones, the starting off-screen slide value and the
  axis assigned to `linearDirection`;
- the two lookups `getLinearDirection` and `getAnimationValue`, with the
  errors they throw;
- `componentDidUpdate`, `open` and `close`, and the deferred hide that `close`
  schedules;
- the decision `render` makes: nothing, or a surface with one margin bound to
  the slide value.

Files:

- `Wrappers.dfy`: `Option` (a property that is `null` or absent) and `Result`
  (a value or the error the component would throw).
- `DirectionalModal.dfy`: the enumerations, the window dimensions, properties
  and state, initialisation, the lookups, the transitions and `render`.
- `ModalTraces.dfy`: runs of one instance through host events (new
  properties, another instance being constructed, a deferred hide firing),
  invariants of every run, and concrete scenarios.

How the component's environment appears in the model:

- The window dimensions are a `Viewport` parameter with positive width and
  height. The off-screen magnitudes are twice the width and twice the height,
  taken from the dimensions read when the file is loaded. `Render` takes a
  separate `screen` argument, because `render` reads the dimensions again.
- An `Animated.Value` is reduced to the value it was created with and the
  target and duration of the last `Animated.timing` started on it.
- Each `setTimeout` of `close` adds one to `pendingHides`. `Tick` fires one of
  them. In a run, `TimerFires` is `Tick` followed by the `componentDidUpdate`
  React runs after the timer's state update.
- `linearDirection` in `initializeState` and `close` is a variable that was
  never declared. So it is one global variable, shared by every instance, and
  not the static field of the class. The model passes it explicitly. `None`
  means no instance has assigned it yet, and reading it then throws a
  `ReferenceError`. In ECMAScript a class body is strict code, where
  assigning an undeclared name throws. The assignment creates a global only
  because React Native's Babel preset compiles the class to plain functions
  and does not emit strict mode for the module.
- Direction and orientation stay strings, as in the source, so that values
  outside the enumerations can be represented. `ParseEdge`,
  `ParseOrientation` and `ParseLinear` say which strings name which value.

Behaviour the model keeps as the code has it:

- The axis assigned at initialisation depends only on `direction`, never on
  the orientation. `close` then looks up the magnitude of that shared axis
  under the instance's orientation. For a left modal in landscape,
  `getAnimationValue(getLinearDirection(...))` gives twice the width. The
  close target, however, is twice the height (`LeftLandscapeScenario`). One
  might expect the vertical value here; the code reaches it only by way of
  the shared axis.
- The axis is not recomputed when the orientation or the direction changes.
  The code assigns it from the direction alone, and only at initialisation.
- Constructing another instance overwrites the shared axis. That changes
  where this instance closes to (`SharedAxisInterference`).
- A deferred hide is never cancelled, and it does not check whether the
  `visible` property is still false: it hides the modal unconditionally. So
  closing and then reopening within the close duration still hides the
  reopened modal when the timer fires. The following update then shows it
  again (`StaleHideAfterReopen`).
- `componentDidUpdate` opens on every update whose `visible` is true, and
  closes on every update whose `visible` is false, not only when the flag
  changes. Each close while the modal is still shown schedules another hide.
- When the direction names no edge, neither branch of `initializeState`
  (DirectionalModal.js:109, :120) matches, so no slide value is created.
  Starting a timing on that undefined value then throws, because the host
  animation engine needs a value. Opening such an instance throws
  `NoSlideAnimation`. Closing it throws
  `NoSlideAnimation` once the shared axis has been assigned and the
  orientation is valid; before that, closing throws the earlier errors
  (`LinearDirectionUndefined`, then `IncorrectOrientation`).
- `Render` marks the margin of the edge the current `direction` property
  names as `Slide`, even when the state has no slide value. That happens when
  the direction named no edge at construction and a later `direction`
  property names one. The source then sets that margin to `undefined`, which
  the host layout ignores, so on screen that margin is in effect 0.

## Model

| member | source | states |
|---|---|---|
| `DirectionalModal.ParseEdge` | DirectionalModal.js:158-171 | exactly the strings top, bottom, left and right name an edge, and each names the edge whose spelling it is |
| `DirectionalModal.ParseOrientation` | DirectionalModal.js:154-155 | exactly 'PORTRAIT' and 'LANDSCAPE' name an orientation |
| `DirectionalModal.ParseLinear` | DirectionalModal.js:185-198 | exactly 'VERTICAL' and 'HORIZONTAL' name a linear direction |
| `DirectionalModal.Extent` | DirectionalModal.js:24-25 | the off-screen magnitude is positive: twice the window height for VERTICAL and twice the window width for HORIZONTAL |
| `DirectionalModal.PropOrDefault` | DirectionalModal.js:78-101 | overriding only when the property is given and differs from the default yields the given value when there is one, else the default |
| `DirectionalModal.InitializeState` | DirectionalModal.js:52-127 | fails exactly when direction or visible is null, with the direction error first; otherwise copies direction and visible, defaults transparent=false, animated=true, animationTime=500, orientation='PORTRAIT', starts the slide at `Extent` of the edge's own axis (twice the window height for top/bottom, twice the width for left/right) and assigns that axis to the shared variable, or creates no slide value and leaves the variable alone when the direction names no edge |
| `DirectionalModal.InitialSlideIgnoresOrientation` | DirectionalModal.js:109-123 | changing the orientation property changes neither the starting slide value nor the assigned axis |
| `DirectionalModal.InitialAxisAgreesWithPortraitLookup` | DirectionalModal.js:109-123 | the axis assigned at initialisation is the one getLinearDirection resolves in portrait, and the opposite of the one it resolves in landscape |
| `DirectionalModal.GetLinearDirection` | DirectionalModal.js:153-173 | fails on an invalid orientation, then on an invalid direction, and succeeds otherwise; top/bottom give VERTICAL and left/right give HORIZONTAL in portrait, and landscape swaps them |
| `DirectionalModal.GetAnimationValue` | DirectionalModal.js:180-200 | fails on an invalid orientation, then on an invalid linear direction, and succeeds otherwise; VERTICAL gives twice the height and HORIZONTAL twice the width in portrait, and landscape swaps them |
| `DirectionalModal.AnimationValueOfLinearDirection` | DirectionalModal.js:153-200 | under any valid orientation, the magnitude of the resolved axis is twice the height for top/bottom and twice the width for left/right |
| `DirectionalModal.StartTiming` | DirectionalModal.js:204-210 | starting a timing fails exactly when there is no slide value, and otherwise records the target and the state's animationTime, keeping the starting value |
| `DirectionalModal.Open` | DirectionalModal.js:203-216 | targets 0 over animationTime; afterwards the modal is shown exactly when it was shown before or the visible property is true; it never hides it and changes nothing else |
| `DirectionalModal.Close` | DirectionalModal.js:218-232 | throws if the shared axis was never assigned, then on an invalid orientation, then if there is no slide value; otherwise targets the magnitude of the shared axis under the state's orientation, leaves visibility unchanged, schedules one hide exactly when visible is false and the modal is still shown, and changes nothing else |
| `DirectionalModal.Tick` | DirectionalModal.js:228-230 | a pending hide hides the modal unconditionally and is used up; with none pending nothing changes |
| `DirectionalModal.DidUpdate` | DirectionalModal.js:140-146 | visible true opens (shown, target 0, no hide scheduled), visible false closes (visibility kept, off-screen target, a hide scheduled exactly when shown), and anything else changes nothing; only visibility, the slide's timing and the pending hides ever change, and the starting slide value is kept |
| `DirectionalModal.OpenIdempotent` | DirectionalModal.js:212-214 | opening an opened state changes nothing more |
| `DirectionalModal.OpenAndCloseRetarget` | DirectionalModal.js:203-232 | opening after closing aims at 0 again, and closing after opening aims at the same off-screen target as closing directly |
| `DirectionalModal.CloseReturnsToInitialValue` | DirectionalModal.js:218-225 | in portrait, with the shared axis as this instance set it, closing returns the slide to its starting value |
| `DirectionalModal.BoundEdges` | DirectionalModal.js:249-252 | an edge is in the set exactly when its margin is bound to the slide value |
| `DirectionalModal.Render` | DirectionalModal.js:234-263 | nothing exactly when the state is hidden; otherwise a window-sized surface whose only bound margin is the edge the direction property names, or none when it names no edge |
| `ModalTraces.Construct` | DirectionalModal.js:44-47 | construction succeeds exactly when initializeState does, keeps the properties, has no hide pending, takes visible, direction, transparent, animated, orientation and animationTime from the properties (with the defaults), starts the slide at `Extent` of the edge's own axis with no timing (no slide value when the direction names no edge), and writes the shared axis exactly as another instance's construction would |
| `ModalTraces.SharedAfterMount` | DirectionalModal.js:109-123 | another instance's construction overwrites the shared axis with its own edge's axis, never unassigns it, and leaves it alone when it throws or names no edge |
| `ModalTraces.Step` | DirectionalModal.js:140-146 | an update adopts the new properties and leaves the shared axis alone; it succeeds exactly when the open or close it triggers does, changes nothing else when visible is null, and aims the slide at 0 over animationTime when visible is true, or at the off-screen magnitude of the shared axis under the state's orientation when visible is false; a fired hide succeeds exactly when the update React runs after it does; another construction leaves this instance alone; a fired hide uses up one pending hide, after which the modal is shown exactly when the visible property is true; an update leaves the modal shown exactly when it was shown or the visible property is true, and schedules one hide exactly when visible is false and the modal is shown; no event changes anything but visibility, the slide's timing and the pending hides |
| `ModalTraces.Run` | DirectionalModal.js:227-231 | each event schedules at most one deferred hide |
| `ModalTraces.StepKeepsConfiguration` | DirectionalModal.js:203-232 | no single event changes the configuration or the starting slide value |
| `ModalTraces.RunKeepsConfiguration` | DirectionalModal.js:203-232 | no run changes the configuration or the starting slide value |
| `ModalTraces.StepKeepsTargetsInRange` | DirectionalModal.js:207-222 | after an event, every animation target is still 0 or an off-screen magnitude |
| `ModalTraces.RunKeepsTargetsInRange` | DirectionalModal.js:204-225 | along any run, every animation target is 0, twice the width or twice the height |
| `ModalTraces.ConstructedTargetsInRange` | DirectionalModal.js:109-122 | a constructed instance has started no timing |
| `ModalTraces.OnlyTimerHides` | DirectionalModal.js:212-231 | a shown modal stays shown through every run in which no deferred hide fires |
| `ModalTraces.UpdateSchedulesHideOnlyWhenClosingShown` | DirectionalModal.js:227-231 | an update schedules a hide exactly when it closes a shown modal, and at most one |
| `ModalTraces.TopPortraitScenario` | DirectionalModal.js:109-111 | a top modal on a window 800 high starts at 1600, renders nothing while hidden, and once shown targets 0 over 500 ms with only its top margin bound |
| `ModalTraces.LeftLandscapeScenario` | DirectionalModal.js:218-225 | for left in landscape the lookup gives VERTICAL (magnitude twice the width), while close aims at twice the height |
| `ModalTraces.StaleHideAfterReopen` | DirectionalModal.js:227-231 | after close then reopen, the pending hide still hides the modal when it fires, and the following update shows it again |
| `ModalTraces.SharedAxisInterference` | DirectionalModal.js:120-122 | after a left instance is constructed, a top instance in portrait closes to twice the width instead of its starting twice the height |
| `ModalTraces.HiddenAtConstruction` | DirectionalModal.js:238-240 | an instance constructed with visible false renders nothing |
| `ModalTraces.CloseBeforeAnyAssignmentThrows` | DirectionalModal.js:222 | closing before any instance has assigned the shared axis throws |

## Left out

- `shouldComponentUpdate` (DirectionalModal.js:132-138): it returns true, and its guard compares `nextProps.direction` with itself. That is true only for NaN, which is not a string, and direction is modelled as a string.
- `transparent` and `animated` beyond their initialisation: nothing reads them.
- The interpolation of `Animated.timing` over time: it is the host engine's floating-point work. Only the target and the duration are kept.
- `Dimensions.get('window')`: a call into the host. Width and height are positive integer parameters.
- `setTimeout` as real time: a pending hide is a counter, and firing it is an explicit event. Hides fire in the order they were scheduled, and all do the same thing.
- React's lifecycle plumbing and `setState` batching: state updates are direct record updates. One consequence is kept: the `componentDidUpdate` that follows a fired hide. The one that follows `open`'s own update is left out, because `OpenIdempotent` shows it changes nothing.
- An error thrown by `componentDidUpdate` ends a run. The host's reaction to it, such as unmounting, is not modelled.
- A construction of another instance that throws leaves this instance and the shared axis unchanged (`MountOther`). The model assumes the host catches that error, for example with an error boundary. Without one, React would unmount the whole tree.
- Property values of the wrong JavaScript type, and loose-equality coercions between types: `visible`, `transparent` and `animated` are booleans and `animationTime` is an integer.
- Styling, shadow, background colour, `StyleSheet` and the composed `children`: presentational only.

=== FILE: DirectionalModal.dfy ===
/** The DirectionalModal component: a full-window surface that slides in from
    one screen edge when its `visible` property turns true and slides back out
    when it turns false.

    The model keeps the component's own logic: validating and defaulting the
    properties, resolving the slide axis and the off-screen magnitude, the
    `open`/`close` transitions with their deferred hide, and the decision of
    what to render. The animation engine is reduced to the target and duration
    of the last timing started on the slide value, and the deferred hide of
    `close` to a count of timers still to fire. */
module DirectionalModal {
  import opened Wrappers

  // ---------------------------------------------------------------------------
  // Enumerations and their string spellings
  // ---------------------------------------------------------------------------

  /** The screen edge the modal slides from (the `direction` property). */
  datatype Edge = Top | Bottom | Left | Right

  /** The axis the slide travels along (the source's `linearDirection`). */
  datatype LinearDirection = Vertical | Horizontal

  /** The screen's rotation state. */
  datatype Orientation = Portrait | Landscape

  /** The errors the component throws. */
  datatype ModalError =
    | DirectionRequired         // construction without a `direction` property
    | VisibleRequired           // construction without a `visible` property
    | IncorrectOrientation      // orientation other than 'PORTRAIT'/'LANDSCAPE'
    | IncorrectDirection        // direction other than top/bottom/left/right
    | IncorrectLinearDirection  // linear direction other than VERTICAL/HORIZONTAL
    | LinearDirectionUndefined  // the shared `linearDirection` read before any assignment
    | NoSlideAnimation          // a timing started on a slide value that was never created

  function EdgeName(e: Edge): string {
    match e
    case Top => "top"
    case Bottom => "bottom"
    case Left => "left"
    case Right => "right"
  }

  /** The edge a `direction` string names, if any. */
  function ParseEdge(s: string): (r: Option<Edge>)
    ensures r.Some? <==> (s == "top" || s == "bottom" || s == "left" || s == "right")
    ensures r.Some? ==> EdgeName(r.value) == s
  {
    if s == "top" then Some(Top)
    else if s == "bottom" then Some(Bottom)
    else if s == "left" then Some(Left)
    else if s == "right" then Some(Right)
    else None
  }

  function LinearName(l: LinearDirection): string {
    match l
    case Vertical => "VERTICAL"
    case Horizontal => "HORIZONTAL"
  }

  /** The linear direction a string names, if any. */
  function ParseLinear(s: string): (r: Option<LinearDirection>)
    ensures r.Some? <==> (s == "VERTICAL" || s == "HORIZONTAL")
    ensures r.Some? ==> LinearName(r.value) == s
  {
    if s == "VERTICAL" then Some(Vertical)
    else if s == "HORIZONTAL" then Some(Horizontal)
    else None
  }

  function OrientationName(o: Orientation): string {
    match o
    case Portrait => "PORTRAIT"
    case Landscape => "LANDSCAPE"
  }

  /** The orientation a string names, if any. */
  function ParseOrientation(s: string): (r: Option<Orientation>)
    ensures r.Some? <==> (s == "PORTRAIT" || s == "LANDSCAPE")
    ensures r.Some? ==> OrientationName(r.value) == s
  {
    if s == "PORTRAIT" then Some(Portrait)
    else if s == "LANDSCAPE" then Some(Landscape)
    else None
  }

  /** The axis an edge lies across: top and bottom slide vertically. */
  function NaturalAxis(e: Edge): LinearDirection {
    if e == Top || e == Bottom then Vertical else Horizontal
  }

  function Flip(l: LinearDirection): LinearDirection {
    if l == Vertical then Horizontal else Vertical
  }

  /** Both lookups treat landscape as swapping the two axes. */
  function Oriented(o: Orientation, l: LinearDirection): LinearDirection {
    if o == Landscape then Flip(l) else l
  }

  // ---------------------------------------------------------------------------
  // Window dimensions and off-screen magnitudes
  // ---------------------------------------------------------------------------

  datatype Window = Window(width: int, height: int)

  /** The window dimensions, read once when the component's file is loaded. */
  type Viewport = w: Window | w.width > 0 && w.height > 0 witness Window(1, 1)

  /** ANIMATION_VALUE_HORIZONTAL: twice the window width. */
  function HorizontalValue(v: Viewport): int {
    v.width * 2
  }

  /** ANIMATION_VALUE_VERTICAL: twice the window height. */
  function VerticalValue(v: Viewport): int {
    v.height * 2
  }

  /** The off-screen magnitude along an axis. */
  function Extent(v: Viewport, l: LinearDirection): (r: int)
    ensures r > 0
    ensures l == Vertical ==> r == 2 * v.height
    ensures l == Horizontal ==> r == 2 * v.width
  {
    match l
    case Vertical => VerticalValue(v)
    case Horizontal => HorizontalValue(v)
  }

  // ---------------------------------------------------------------------------
  // Properties, state and their initialisation
  // ---------------------------------------------------------------------------

  /** The properties a host passes; `None` is a `null` or missing property. */
  datatype Props = Props(
    direction: Option<string>,
    visible: Option<bool>,
    transparent: Option<bool>,
    animated: Option<bool>,
    animationTime: Option<int>,
    orientation: Option<string>)

  /** The last `Animated.timing` started on the slide value. */
  datatype Timing = Timing(toValue: int, duration: int)

  /** The animated slide value: the value it was created with and the last
      timing started on it (`None` until the first one). */
  datatype SlideAnimation = SlideAnimation(initial: int, timing: Option<Timing>)

  /** The component's state. `slideAnimation` is `None` when the direction
      named no edge, so that no value was created; `pendingHides` counts the
      deferred hides `close` has scheduled and that have not fired yet. */
  datatype State = State(
    direction: string,
    visible: bool,
    transparent: bool,
    animated: bool,
    animationTime: int,
    orientation: string,
    slideAnimation: Option<SlideAnimation>,
    pendingHides: nat)

  /** A freshly initialised state together with the new value of the
      `linearDirection` variable, which all instances share. */
  datatype Mounted = Mounted(state: State, linearDirection: Option<LinearDirection>)

  const TransparentDefault: bool := false
  const AnimatedDefault: bool := true
  const AnimationTimeDefault: int := 500
  const OrientationDefault: string := "PORTRAIT"

  /** An optional property overrides its default only when it is given and
      differs from it; the outcome is the given value, else the default. */
  function PropOrDefault<T(==)>(prop: Option<T>, default: T): (r: T)
    ensures r == prop.GetOr(default)
  {
    if prop.Some? && prop.value != default then prop.value else default
  }

  /** `initializeState`: validates the required properties, fills in the
      defaults and creates the slide value off screen. `shared` is the value
      of the shared `linearDirection` before this call. */
  function InitializeState(props: Props, v: Viewport, shared: Option<LinearDirection>): (r: Result<Mounted, ModalError>)
    ensures r.Err? <==> props.direction.None? || props.visible.None?
    ensures props.direction.None? ==> r == Err(DirectionRequired)
    ensures props.direction.Some? && props.visible.None? ==> r == Err(VisibleRequired)
    ensures r.Ok? ==>
              var s := r.value.state;
              && s.direction == props.direction.value
              && s.visible == props.visible.value
              && s.transparent == props.transparent.GetOr(false)
              && s.animated == props.animated.GetOr(true)
              && s.animationTime == props.animationTime.GetOr(500)
              && s.orientation == props.orientation.GetOr("PORTRAIT")
              && s.pendingHides == 0
    ensures r.Ok? ==>
              match ParseEdge(props.direction.value)
              case Some(e) =>
                && r.value.state.slideAnimation == Some(SlideAnimation(Extent(v, NaturalAxis(e)), None))
                && r.value.linearDirection == Some(NaturalAxis(e))
              case None =>
                && r.value.state.slideAnimation.None?
                && r.value.linearDirection == shared
  {
    if props.direction.None? then Err(DirectionRequired)
    else if props.visible.None? then Err(VisibleRequired)
    else
      var direction := props.direction.value;
      var initial := State(
        direction,
        props.visible.value,
        PropOrDefault(props.transparent, TransparentDefault),
        PropOrDefault(props.animated, AnimatedDefault),
        PropOrDefault(props.animationTime, AnimationTimeDefault),
        PropOrDefault(props.orientation, OrientationDefault),
        None,
        0);
      if direction == "top" || direction == "bottom" then
        Ok(Mounted(initial.(slideAnimation := Some(SlideAnimation(VerticalValue(v), None))), Some(Vertical)))
      else if direction == "left" || direction == "right" then
        Ok(Mounted(initial.(slideAnimation := Some(SlideAnimation(HorizontalValue(v), None))), Some(Horizontal)))
      else
        Ok(Mounted(initial, shared))
  }

  // ---------------------------------------------------------------------------
  // The two lookups
  // ---------------------------------------------------------------------------

  /** `getLinearDirection`: the axis of `direction` under `orientation`
      (the state's orientation string). */
  function GetLinearDirection(orientation: string, direction: string): (r: Result<LinearDirection, ModalError>)
    ensures ParseOrientation(orientation).None? ==> r == Err(IncorrectOrientation)
    ensures ParseOrientation(orientation).Some? && ParseEdge(direction).None? ==> r == Err(IncorrectDirection)
    ensures r.Ok? <==> ParseOrientation(orientation).Some? && ParseEdge(direction).Some?
    ensures r.Ok? ==> r.value == Oriented(ParseOrientation(orientation).value, NaturalAxis(ParseEdge(direction).value))
  {
    if orientation != "PORTRAIT" && orientation != "LANDSCAPE" then Err(IncorrectOrientation)
    else if direction == "top" || direction == "bottom" then
      if orientation == "PORTRAIT" then Ok(Vertical) else Ok(Horizontal)
    else if direction == "left" || direction == "right" then
      if orientation == "PORTRAIT" then Ok(Horizontal) else Ok(Vertical)
    else Err(IncorrectDirection)
  }

  /** `getAnimationValue`: the off-screen magnitude for `linear` (a linear
      direction string) under `orientation`. */
  function GetAnimationValue(orientation: string, linear: string, v: Viewport): (r: Result<int, ModalError>)
    ensures ParseOrientation(orientation).None? ==> r == Err(IncorrectOrientation)
    ensures ParseOrientation(orientation).Some? && ParseLinear(linear).None? ==> r == Err(IncorrectLinearDirection)
    ensures r.Ok? <==> ParseOrientation(orientation).Some? && ParseLinear(linear).Some?
    ensures r.Ok? ==> r.value == Extent(v, Oriented(ParseOrientation(orientation).value, ParseLinear(linear).value))
  {
    if orientation != "PORTRAIT" && orientation != "LANDSCAPE" then Err(IncorrectOrientation)
    else if linear == "VERTICAL" then
      if orientation == "PORTRAIT" then Ok(VerticalValue(v)) else Ok(HorizontalValue(v))
    else if linear == "HORIZONTAL" then
      if orientation == "PORTRAIT" then Ok(HorizontalValue(v)) else Ok(VerticalValue(v))
    else Err(IncorrectLinearDirection)
  }

  /** Resolving an edge's axis and then its magnitude under the same valid
      orientation always lands on the edge's own axis: twice the height for
      top/bottom, twice the width for left/right. */
  lemma AnimationValueOfLinearDirection(orientation: string, direction: string, v: Viewport)
    requires ParseOrientation(orientation).Some? && ParseEdge(direction).Some?
    ensures GetLinearDirection(orientation, direction).Ok?
    ensures GetAnimationValue(orientation, LinearName(GetLinearDirection(orientation, direction).value), v)
            == Ok(Extent(v, NaturalAxis(ParseEdge(direction).value)))
  {
  }

  /** In portrait the axis chosen at initialisation is the one
      `getLinearDirection` resolves; in landscape it is the other one. */
  lemma InitialAxisAgreesWithPortraitLookup(props: Props, v: Viewport, shared: Option<LinearDirection>)
    requires InitializeState(props, v, shared).Ok?
    requires ParseEdge(props.direction.value).Some?
    ensures InitializeState(props, v, shared).value.linearDirection
            == Some(GetLinearDirection("PORTRAIT", props.direction.value).value)
    ensures InitializeState(props, v, shared).value.linearDirection
            == Some(Flip(GetLinearDirection("LANDSCAPE", props.direction.value).value))
  {
  }

  /** The starting slide value and the shared axis depend on `direction`
      alone: changing the orientation property changes neither. */
  lemma InitialSlideIgnoresOrientation(props: Props, orientation: Option<string>, v: Viewport, shared: Option<LinearDirection>)
    requires InitializeState(props, v, shared).Ok?
    ensures InitializeState(props.(orientation := orientation), v, shared).Ok?
    ensures InitializeState(props.(orientation := orientation), v, shared).value.state.slideAnimation
            == InitializeState(props, v, shared).value.state.slideAnimation
    ensures InitializeState(props.(orientation := orientation), v, shared).value.linearDirection
            == InitializeState(props, v, shared).value.linearDirection
  {
  }

  // ---------------------------------------------------------------------------
  // Transitions
  // ---------------------------------------------------------------------------

  /** Starts a timing on the state's slide value; fails when there is none. */
  function StartTiming(s: State, toValue: int): (r: Result<State, ModalError>)
    ensures r.Err? <==> s.slideAnimation.None?
    ensures r.Err? ==> r.error == NoSlideAnimation
    ensures r.Ok? ==> r.value == s.(slideAnimation := Some(SlideAnimation(s.slideAnimation.value.initial, Some(Timing(toValue, s.animationTime)))))
  {
    match s.slideAnimation
    case None => Err(NoSlideAnimation)
    case Some(a) => Ok(s.(slideAnimation := Some(a.(timing := Some(Timing(toValue, s.animationTime))))))
  }

  /** `open`: animate the slide value to 0 over `animationTime`, and show the
      modal if the `visible` property asks for it and it is not shown yet. */
  function Open(s: State, visibleProp: Option<bool>): (r: Result<State, ModalError>)
    ensures r.Err? <==> s.slideAnimation.None?
    ensures r.Err? ==> r.error == NoSlideAnimation
    ensures r.Ok? ==> r.value.slideAnimation.Some?
                      && r.value.slideAnimation.value.initial == s.slideAnimation.value.initial
                      && r.value.slideAnimation.value.timing == Some(Timing(0, s.animationTime))
    ensures r.Ok? ==> (r.value.visible <==> s.visible || visibleProp == Some(true))
    ensures r.Ok? ==> r.value == s.(slideAnimation := r.value.slideAnimation, visible := r.value.visible)
  {
    var started :- StartTiming(s, 0);
    if visibleProp == Some(true) && !s.visible then Ok(started.(visible := true)) else Ok(started)
  }

  /** `close`: animate the slide value to the off-screen magnitude of the
      shared `linearDirection` under the state's orientation, and schedule a
      deferred hide when the `visible` property is false and the modal is
      still shown. Visibility itself does not change here. */
  function Close(s: State, visibleProp: Option<bool>, shared: Option<LinearDirection>, v: Viewport): (r: Result<State, ModalError>)
    ensures shared.None? ==> r == Err(LinearDirectionUndefined)
    ensures shared.Some? && ParseOrientation(s.orientation).None? ==> r == Err(IncorrectOrientation)
    ensures shared.Some? && ParseOrientation(s.orientation).Some? && s.slideAnimation.None? ==> r == Err(NoSlideAnimation)
    ensures r.Ok? <==> shared.Some? && ParseOrientation(s.orientation).Some? && s.slideAnimation.Some?
    ensures r.Ok? ==> r.value.slideAnimation.Some?
                      && r.value.slideAnimation.value.initial == s.slideAnimation.value.initial
                      && r.value.slideAnimation.value.timing
                         == Some(Timing(Extent(v, Oriented(ParseOrientation(s.orientation).value, shared.value)), s.animationTime))
    ensures r.Ok? ==> r.value.visible == s.visible
    ensures r.Ok? ==> r.value.pendingHides == if visibleProp == Some(false) && s.visible then s.pendingHides + 1 else s.pendingHides
    ensures r.Ok? ==> r.value == s.(slideAnimation := r.value.slideAnimation, pendingHides := r.value.pendingHides)
  {
    if shared.None? then Err(LinearDirectionUndefined)
    else
      var target :- GetAnimationValue(s.orientation, LinearName(shared.value), v);
      assert ParseLinear(LinearName(shared.value)) == Some(shared.value);
      var started :- StartTiming(s, target);
      if visibleProp == Some(false) && s.visible then Ok(started.(pendingHides := s.pendingHides + 1))
      else Ok(started)
  }

  /** One deferred hide fires: it hides the modal whatever has happened since
      it was scheduled. With nothing pending, nothing fires. */
  function Tick(s: State): (r: State)
    ensures s.pendingHides == 0 ==> r == s
    ensures s.pendingHides > 0 ==> !r.visible && r.pendingHides + 1 == s.pendingHides
    ensures r == s.(visible := r.visible, pendingHides := r.pendingHides)
  {
    if s.pendingHides == 0 then s else s.(visible := false, pendingHides := s.pendingHides - 1)
  }

  /** `componentDidUpdate`: close when the `visible` property is exactly false,
      open when it is exactly true, and do nothing otherwise. */
  function DidUpdate(s: State, visibleProp: Option<bool>, shared: Option<LinearDirection>, v: Viewport): (r: Result<State, ModalError>)
    ensures visibleProp.None? ==> r == Ok(s)
    ensures visibleProp == Some(true) ==> (r.Ok? <==> s.slideAnimation.Some?)
    ensures visibleProp == Some(true) && r.Ok? ==>
              && r.value.visible
              && r.value.slideAnimation.Some?
              && r.value.slideAnimation.value.timing == Some(Timing(0, s.animationTime))
              && r.value.pendingHides == s.pendingHides
    ensures visibleProp == Some(false) ==>
              (r.Ok? <==> shared.Some? && ParseOrientation(s.orientation).Some? && s.slideAnimation.Some?)
    ensures visibleProp == Some(false) && r.Ok? ==>
              && r.value.visible == s.visible
              && r.value.slideAnimation.Some?
              && r.value.slideAnimation.value.timing
                 == Some(Timing(Extent(v, Oriented(ParseOrientation(s.orientation).value, shared.value)), s.animationTime))
              && r.value.pendingHides == (if s.visible then s.pendingHides + 1 else s.pendingHides)
    ensures r.Ok? ==> r.value == s.(visible := r.value.visible, slideAnimation := r.value.slideAnimation, pendingHides := r.value.pendingHides)
    ensures r.Ok? && r.value.slideAnimation.Some? ==>
              s.slideAnimation.Some? && r.value.slideAnimation.value.initial == s.slideAnimation.value.initial
  {
    match visibleProp
    case Some(false) => Close(s, visibleProp, shared, v)
    case Some(true) => Open(s, visibleProp)
    case None => Ok(s)
  }

  /** Opening twice in a row is the same as opening once; so the second
      `componentDidUpdate` that React runs after the state update made by
      `open` changes nothing. */
  lemma OpenIdempotent(s: State, visibleProp: Option<bool>)
    requires Open(s, visibleProp).Ok?
    ensures Open(Open(s, visibleProp).value, visibleProp) == Open(s, visibleProp)
  {
  }

  /** Closing after opening aims at the off-screen magnitude again, and opening
      after closing aims at 0: each transition undoes the other's target. */
  lemma OpenAndCloseRetarget(s: State, visibleProp: Option<bool>, shared: Option<LinearDirection>, v: Viewport)
    requires Close(s, visibleProp, shared, v).Ok?
    ensures Open(Close(s, visibleProp, shared, v).value, visibleProp).Ok?
    ensures Open(Close(s, visibleProp, shared, v).value, visibleProp).value.slideAnimation.value.timing
            == Some(Timing(0, s.animationTime))
    ensures Open(s, visibleProp).Ok? && Close(Open(s, visibleProp).value, visibleProp, shared, v).Ok?
    ensures Close(Open(s, visibleProp).value, visibleProp, shared, v).value.slideAnimation
            == Close(s, visibleProp, shared, v).value.slideAnimation
  {
  }

  /** In portrait, when the shared axis is still the one this instance set,
      closing returns the slide value to where it started. */
  lemma CloseReturnsToInitialValue(props: Props, v: Viewport, shared: Option<LinearDirection>, visibleProp: Option<bool>)
    requires InitializeState(props, v, shared).Ok?
    requires props.orientation.GetOr("PORTRAIT") == "PORTRAIT"
    requires ParseEdge(props.direction.value).Some?
    ensures
      var m := InitializeState(props, v, shared).value;
      && Close(m.state, visibleProp, m.linearDirection, v).Ok?
      && Close(m.state, visibleProp, m.linearDirection, v).value.slideAnimation.value.timing.value.toValue
         == m.state.slideAnimation.value.initial
  {
  }

  // ---------------------------------------------------------------------------
  // Rendering
  // ---------------------------------------------------------------------------

  /** A margin is either 0 or bound to the slide value. */
  datatype Margin = Zero | Slide

  /** The animated surface `render` produces. */
  datatype Surface = Surface(
    width: int,
    height: int,
    marginLeft: Margin,
    marginRight: Margin,
    marginTop: Margin,
    marginBottom: Margin)

  function MarginAt(sf: Surface, e: Edge): Margin {
    match e
    case Top => sf.marginTop
    case Bottom => sf.marginBottom
    case Left => sf.marginLeft
    case Right => sf.marginRight
  }

  /** The edges whose margin follows the slide value. */
  function BoundEdges(sf: Surface): (r: set<Edge>)
    ensures forall e: Edge :: e in r <==> MarginAt(sf, e) == Slide
  {
    (if sf.marginTop == Slide then {Top} else {})
    + (if sf.marginBottom == Slide then {Bottom} else {})
    + (if sf.marginLeft == Slide then {Left} else {})
    + (if sf.marginRight == Slide then {Right} else {})
  }

  /** `render`: nothing while hidden; otherwise a surface the size of `screen`
      (the window as read at render time) whose margin on the edge named by
      the current `direction` property is bound to the slide value. */
  function Render(s: State, direction: Option<string>, screen: Viewport): (r: Option<Surface>)
    ensures r.None? <==> !s.visible
    ensures r.Some? ==> r.value.width == screen.width && r.value.height == screen.height
    ensures r.Some? ==> BoundEdges(r.value) == (if direction.Some? && ParseEdge(direction.value).Some? then {ParseEdge(direction.value).value} else {})
  {
    if !s.visible then None
    else
      Some(Surface(
        screen.width,
        screen.height,
        if direction == Some("left") then Slide else Zero,
        if direction == Some("right") then Slide else Zero,
        if direction == Some("top") then Slide else Zero,
        if direction == Some("bottom") then Slide else Zero))
  }
}

=== FILE: ModalTraces.dfy ===
/** Runs of one DirectionalModal instance through a sequence of host events,
    with invariants that hold along every run and the scenarios that show how
    the deferred hide and the shared `linearDirection` behave. */
module ModalTraces {
  import opened Wrappers
  import opened DirectionalModal

  /** One mounted instance: its current properties and its state. */
  datatype Modal = Modal(props: Props, state: State)

  /** The instance under study and the `linearDirection` variable that every
      instance of the component reads and writes. */
  datatype World = World(modal: Modal, linearDirection: Option<LinearDirection>)

  datatype Event =
    | Update(props: Props)      // the host re-renders the instance with new properties
    | MountOther(props: Props)  // another instance of the component is constructed
    | TimerFires                // the earliest deferred hide fires

  /** The constructor: the instance starts from its initialised state. */
  function Construct(props: Props, v: Viewport, shared: Option<LinearDirection>): (r: Result<World, ModalError>)
    ensures r.Ok? <==> InitializeState(props, v, shared).Ok?
    ensures r.Ok? ==> r.value.modal.props == props && r.value.modal.state.pendingHides == 0
    ensures r.Ok? ==> r.value.modal.state.visible == props.visible.value
                      && r.value.modal.state.direction == props.direction.value
                      && r.value.modal.state.orientation == props.orientation.GetOr("PORTRAIT")
                      && r.value.modal.state.animationTime == props.animationTime.GetOr(500)
    ensures r.Ok? ==> r.value.modal.state.transparent == props.transparent.GetOr(false)
                      && r.value.modal.state.animated == props.animated.GetOr(true)
    ensures r.Ok? ==>
              (r.value.modal.state.slideAnimation ==
                 match ParseEdge(props.direction.value)
                 case Some(e) => Some(SlideAnimation(Extent(v, NaturalAxis(e)), None))
                 case None => None)
    ensures r.Ok? ==> r.value.linearDirection == SharedAfterMount(props, v, shared)
  {
    var m :- InitializeState(props, v, shared);
    Ok(World(Modal(props, m.state), m.linearDirection))
  }

  /** The shared `linearDirection` after another instance is constructed; a
      construction that throws does so before assigning it. */
  function SharedAfterMount(props: Props, v: Viewport, shared: Option<LinearDirection>): (r: Option<LinearDirection>)
    ensures shared.Some? ==> r.Some?
    ensures props.direction.Some? && props.visible.Some? && ParseEdge(props.direction.value).Some? ==>
              r == Some(NaturalAxis(ParseEdge(props.direction.value).value))
    ensures (props.direction.None? || props.visible.None? || ParseEdge(props.direction.value).None?) ==> r == shared
  {
    match InitializeState(props, v, shared)
    case Ok(m) => m.linearDirection
    case Err(_) => shared
  }

  /** One event. A fired hide is a state update, after which React runs
      `componentDidUpdate` again with the current properties. */
  function Step(w: World, e: Event, v: Viewport): (r: Result<World, ModalError>)
    ensures e.MountOther? ==> r.Ok? && r.value.modal == w.modal
    ensures e.Update? && r.Ok? ==> r.value.modal.props == e.props && r.value.linearDirection == w.linearDirection
    ensures e.Update? ==>
              (r.Ok? <==>
                 && (e.props.visible == Some(true) ==> w.modal.state.slideAnimation.Some?)
                 && (e.props.visible == Some(false) ==>
                       w.linearDirection.Some? && ParseOrientation(w.modal.state.orientation).Some?
                       && w.modal.state.slideAnimation.Some?))
    ensures e.Update? && e.props.visible.None? ==> r == Ok(w.(modal := Modal(e.props, w.modal.state)))
    ensures e.Update? && e.props.visible == Some(true) && r.Ok? ==>
              r.value.modal.state.slideAnimation.Some?
              && r.value.modal.state.slideAnimation.value.timing == Some(Timing(0, w.modal.state.animationTime))
    ensures e.Update? && e.props.visible == Some(false) && r.Ok? ==>
              r.value.modal.state.slideAnimation.Some?
              && r.value.modal.state.slideAnimation.value.timing
              == Some(Timing(Extent(v, Oriented(ParseOrientation(w.modal.state.orientation).value, w.linearDirection.value)),
                             w.modal.state.animationTime))
    ensures e.Update? && r.Ok? ==>
              && (r.value.modal.state.visible <==> w.modal.state.visible || e.props.visible == Some(true))
              && r.value.modal.state.pendingHides
                 == if e.props.visible == Some(false) && w.modal.state.visible then w.modal.state.pendingHides + 1
                    else w.modal.state.pendingHides
    ensures r.Ok? ==>
              var s := r.value.modal.state;
              && s == w.modal.state.(visible := s.visible, slideAnimation := s.slideAnimation, pendingHides := s.pendingHides)
              && s.slideAnimation.Some? == w.modal.state.slideAnimation.Some?
              && (s.slideAnimation.Some? ==> s.slideAnimation.value.initial == w.modal.state.slideAnimation.value.initial)
    ensures e.TimerFires? && w.modal.state.pendingHides == 0 ==> r == Ok(w)
    ensures e.TimerFires? && w.modal.state.pendingHides > 0 ==>
              (r.Ok? <==>
                 && (w.modal.props.visible == Some(true) ==> w.modal.state.slideAnimation.Some?)
                 && (w.modal.props.visible == Some(false) ==>
                       w.linearDirection.Some? && ParseOrientation(w.modal.state.orientation).Some?
                       && w.modal.state.slideAnimation.Some?))
    ensures e.TimerFires? && w.modal.state.pendingHides > 0 && r.Ok? ==>
              && r.value.modal.props == w.modal.props
              && r.value.modal.state.pendingHides + 1 == w.modal.state.pendingHides
              && (r.value.modal.state.visible <==> w.modal.props.visible == Some(true))
  {
    match e
    case Update(p) =>
      var s :- DidUpdate(w.modal.state, p.visible, w.linearDirection, v);
      Ok(w.(modal := Modal(p, s)))
    case MountOther(p) =>
      Ok(w.(linearDirection := SharedAfterMount(p, v, w.linearDirection)))
    case TimerFires =>
      if w.modal.state.pendingHides == 0 then Ok(w)
      else
        var s :- DidUpdate(Tick(w.modal.state), w.modal.props.visible, w.linearDirection, v);
        Ok(w.(modal := w.modal.(state := s)))
  }

  /** A run of events; the first error thrown ends it. */
  function Run(w: World, events: seq<Event>, v: Viewport): (r: Result<World, ModalError>)
    ensures r.Ok? ==> r.value.modal.state.pendingHides <= w.modal.state.pendingHides + |events|
    decreases |events|
  {
    if |events| == 0 then Ok(w)
    else
      var w' :- Step(w, events[0], v);
      Run(w', events[1..], v)
  }

  // ---------------------------------------------------------------------------
  // Invariants of runs
  // ---------------------------------------------------------------------------

  /** The configuration fixed at construction. */
  ghost predicate SameConfiguration(a: State, b: State) {
    && a.direction == b.direction
    && a.transparent == b.transparent
    && a.animated == b.animated
    && a.animationTime == b.animationTime
    && a.orientation == b.orientation
    && a.slideAnimation.Some? == b.slideAnimation.Some?
    && (a.slideAnimation.Some? ==> a.slideAnimation.value.initial == b.slideAnimation.value.initial)
  }

  lemma StepKeepsConfiguration(w: World, e: Event, v: Viewport)
    requires Step(w, e, v).Ok?
    ensures SameConfiguration(w.modal.state, Step(w, e, v).value.modal.state)
  {
  }

  /** No event changes the configuration or the starting slide value. */
  lemma {:induction false} RunKeepsConfiguration(w: World, events: seq<Event>, v: Viewport)
    requires Run(w, events, v).Ok?
    ensures SameConfiguration(w.modal.state, Run(w, events, v).value.modal.state)
    decreases |events|
  {
    if |events| > 0 {
      StepKeepsConfiguration(w, events[0], v);
      RunKeepsConfiguration(Step(w, events[0], v).value, events[1..], v);
    }
  }

  /** Every animation target is 0 (open) or an off-screen magnitude: twice
      the width or twice the height of the window. */
  ghost predicate TargetsInRange(s: State, v: Viewport) {
    s.slideAnimation.Some? && s.slideAnimation.value.timing.Some? ==>
      var t := s.slideAnimation.value.timing.value.toValue;
      t == 0 || t == 2 * v.width || t == 2 * v.height
  }

  lemma StepKeepsTargetsInRange(w: World, e: Event, v: Viewport)
    requires TargetsInRange(w.modal.state, v)
    requires Step(w, e, v).Ok?
    ensures TargetsInRange(Step(w, e, v).value.modal.state, v)
  {
  }

  lemma {:induction false} RunKeepsTargetsInRange(w: World, events: seq<Event>, v: Viewport)
    requires TargetsInRange(w.modal.state, v)
    requires Run(w, events, v).Ok?
    ensures TargetsInRange(Run(w, events, v).value.modal.state, v)
    decreases |events|
  {
    if |events| > 0 {
      StepKeepsTargetsInRange(w, events[0], v);
      RunKeepsTargetsInRange(Step(w, events[0], v).value, events[1..], v);
    }
  }

  /** A newly constructed instance has started no timing yet. */
  lemma ConstructedTargetsInRange(props: Props, v: Viewport, shared: Option<LinearDirection>)
    requires Construct(props, v, shared).Ok?
    ensures Construct(props, v, shared).value.modal.state.slideAnimation.Some? ==>
              Construct(props, v, shared).value.modal.state.slideAnimation.value.timing.None?
    ensures TargetsInRange(Construct(props, v, shared).value.modal.state, v)
  {
  }

  predicate NoTimer(events: seq<Event>) {
    forall i :: 0 <= i < |events| ==> !events[i].TimerFires?
  }

  /** Only a fired deferred hide hides the modal: a shown modal stays shown
      through any run in which no timer fires, however the `visible`
      property changes. */
  lemma {:induction false} OnlyTimerHides(w: World, events: seq<Event>, v: Viewport)
    requires w.modal.state.visible
    requires NoTimer(events)
    requires Run(w, events, v).Ok?
    ensures Run(w, events, v).value.modal.state.visible
    decreases |events|
  {
    if |events| > 0 {
      assert !events[0].TimerFires?;
      var w' := Step(w, events[0], v).value;
      assert w'.modal.state.visible;
      assert NoTimer(events[1..]) by {
        forall i | 0 <= i < |events[1..]| ensures !events[1..][i].TimerFires? {
          assert events[1..][i] == events[i + 1];
        }
      }
      OnlyTimerHides(w', events[1..], v);
    }
  }

  /** An update schedules a deferred hide exactly when it closes a modal that
      is still shown, and never more than one. */
  lemma UpdateSchedulesHideOnlyWhenClosingShown(w: World, p: Props, v: Viewport)
    requires Step(w, Update(p), v).Ok?
    ensures
      var s' := Step(w, Update(p), v).value.modal.state;
      && (s'.pendingHides > w.modal.state.pendingHides <==> p.visible == Some(false) && w.modal.state.visible)
      && s'.pendingHides <= w.modal.state.pendingHides + 1
  {
  }

  // ---------------------------------------------------------------------------
  // Scenarios
  // ---------------------------------------------------------------------------

  function ModalProps(direction: string, visible: bool, orientation: Option<string>): Props {
    Props(Some(direction), Some(visible), None, None, None, orientation)
  }

  /** A top modal in portrait on a window 800 high starts 1600 off screen,
      and showing it animates its top margin to 0 over the default 500 ms. */
  lemma TopPortraitScenario(width: int)
    requires width > 0
    ensures
      var v: Viewport := Window(width, 800);
      var w0 := Construct(ModalProps("top", false, None), v, None);
      && w0.Ok?
      && w0.value.modal.state.slideAnimation == Some(SlideAnimation(1600, None))
      && Render(w0.value.modal.state, Some("top"), v).None?
      && var w1 := Step(w0.value, Update(ModalProps("top", true, None)), v);
      && w1.Ok?
      && w1.value.modal.state.visible
      && w1.value.modal.state.slideAnimation == Some(SlideAnimation(1600, Some(Timing(0, 500))))
      && Render(w1.value.modal.state, Some("top"), v).Some?
      && BoundEdges(Render(w1.value.modal.state, Some("top"), v).value) == {Top}
  {
  }

  /** A left modal in landscape: the lookup resolves the vertical axis, whose
      landscape magnitude is twice the width; closing, however, uses the
      shared axis set at construction (horizontal) and so aims at twice the
      height. */
  lemma LeftLandscapeScenario(v: Viewport)
    ensures GetLinearDirection("LANDSCAPE", "left") == Ok(Vertical)
    ensures GetAnimationValue("LANDSCAPE", "VERTICAL", v) == Ok(2 * v.width)
    ensures
      var w0 := Construct(ModalProps("left", true, Some("LANDSCAPE")), v, None);
      && w0.Ok?
      && w0.value.linearDirection == Some(Horizontal)
      && var w1 := Step(w0.value, Update(ModalProps("left", false, Some("LANDSCAPE"))), v);
      && w1.Ok?
      && w1.value.modal.state.slideAnimation.value.timing == Some(Timing(2 * v.height, 500))
  {
  }

  /** Closing and then reopening before the close duration elapses leaves
      the first close's hide pending: when it fires it hides the reopened
      modal, and only the update React runs afterwards shows it again. */
  lemma StaleHideAfterReopen(v: Viewport)
    ensures
      var shown := ModalProps("bottom", true, None);
      var hidden := ModalProps("bottom", false, None);
      var w0 := Construct(shown, v, None);
      && w0.Ok?
      && var w1 := Step(w0.value, Update(hidden), v);
      && w1.Ok?
      && w1.value.modal.state.visible
      && w1.value.modal.state.pendingHides == 1
      && var w2 := Step(w1.value, Update(shown), v);
      && w2.Ok?
      && w2.value.modal.state.visible
      && w2.value.modal.state.pendingHides == 1
      && Render(Tick(w2.value.modal.state), Some("bottom"), v).None?
      && var w3 := Step(w2.value, TimerFires, v);
      && w3.Ok?
      && w3.value.modal.state.visible
      && w3.value.modal.state.pendingHides == 0
  {
  }

  /** Constructing another instance re-targets this one's close: after a
      left modal mounts, a top modal in portrait closes to twice the width
      instead of the twice-the-height it started from. */
  lemma SharedAxisInterference(v: Viewport)
    ensures
      var top := Construct(ModalProps("top", true, None), v, None);
      && top.Ok?
      && top.value.modal.state.slideAnimation.value.initial == 2 * v.height
      && var w1 := Step(top.value, MountOther(ModalProps("left", false, None)), v);
      && w1.Ok?
      && w1.value.linearDirection == Some(Horizontal)
      && var w2 := Step(w1.value, Update(ModalProps("top", false, None)), v);
      && w2.Ok?
      && w2.value.modal.state.slideAnimation.value.timing == Some(Timing(2 * v.width, 500))
  {
  }

  /** A modal constructed hidden renders nothing, whatever its direction. */
  lemma HiddenAtConstruction(props: Props, v: Viewport, shared: Option<LinearDirection>, screen: Viewport)
    requires props.visible == Some(false)
    requires Construct(props, v, shared).Ok?
    ensures Render(Construct(props, v, shared).value.modal.state, props.direction, screen).None?
  {
  }

  /** If no instance has assigned the shared axis, closing throws. */
  lemma CloseBeforeAnyAssignmentThrows(w: World, p: Props, v: Viewport)
    requires w.linearDirection.None?
    requires p.visible == Some(false)
    ensures Step(w, Update(p), v) == Err(LinearDirectionUndefined)
  {
  }
}

=== FILE: Wrappers.dfy ===
/** Option and Result datatypes used in place of JavaScript's `null`/`undefined`
    and of thrown errors. Result is failure-compatible, so `:-` propagates an error. */
module Wrappers {

  /** An optional value: `None` stands for a property that is `null` or absent. */
  datatype Option<+T> = None | Some(value: T) {

    /** The carried value, or `default` when there is none. */
    function GetOr(default: T): T {
      match this
      case Some(v) => v
      case None => default
    }
  }

  /** Either a value or the error an operation would have thrown. */
  datatype Result<+T, +E> = Ok(value: T) | Err(error: E) {

    predicate IsFailure() {
      Err?
    }

    function PropagateFailure<U>(): Result<U, E>
      requires Err?
    {
      Err(error)
    }

    function Extract(): T
      requires Ok?
    {
      value
    }
  }
}
